=== FILE: README.md ===
# go-coinmarketcap request pipeline, modelled in Dafny

This project models the core of the Go client library for the CoinMarketCap
REST API (`client.go`). It covers how a `Client` is configured from ordered
functional options, how one typed GET call is assembled and executed, and the
retry loop that shares one attempt counter between transport failures and
HTTP 429 (section 4 of RFC 6585). It also covers how failures become an
`APIError` and how that error is rendered and classified, and the
`ParamBuilder` that collects query parameters.

Everything is written as pure functions over immutable datatypes:

- `Decimal`: Go's `strconv.Itoa` / `%d` and `strconv.Atoi` on a 64-bit
  platform. Parsing a rendering gives the integer back exactly when it fits
  64 bits.
- `Strings`: `strings.Join` and `strings.Split` on one separator character.
  Splitting undoes joining when no part holds the separator.
- `Params`: the `ParamBuilder`, modelled as `url.Values`, a map from name to
  the values in insertion order. Every `Add*` either appends exactly one
  formatted value or leaves the map unchanged. `Build` returns the map as it
  stands.
- `Envelope`: the `{data, status}` response envelope and its `Status` block.
- `ApiErrors`: `APIError` and its rendering, which loses nothing: it parses
  back into the same error. Also the three predicates, with their vendor-code
  sets, and the two ways the pipeline builds an `APIError`.
- `Config`: the options as a datatype, `NewClient` as a left fold over them,
  and a reference definition of "the last option that writes this field".
- `HeaderKeys`: the canonical header-name form that `http.Header.Set` stores
  names under. This is why a caller's `accept` replaces the default `Accept`.
- `Requests`: the URL and the header set, with a reference definition of the
  value every header ends up with.
- `Retry`: the retry loop as a recursive function over a script of
  per-attempt transport outcomes. It returns the last outcome, the number of
  transport calls and the sleep durations, in nanoseconds as `time.Duration`
  counts them.
- `Pipeline`: `doRequest` and the decision part of `get`. The limiter's answer,
  the transport script and the codecs (`url.Values.Encode`, URL acceptance by
  `http.NewRequestWithContext`, and the two `json.Unmarshal` calls) are inputs.

Behaviour of `client.go` worth noting, all of it modelled as the code has it:

- For a response of status 400 or more whose body decodes, the error takes the
  body's `error_code`, even when that code is 0. A non-null `error_message`
  replaces the raw body, whatever the code is (`ApiErrors.FromHttpResponse`).
- Every error from the transport is retried, including one caused by a
  cancelled context. The backoff sleeps (`time.Sleep`) cannot be cancelled.
- `WithSandbox(true)` overwrites the base URL as soon as it is applied. A later
  `WithSandbox(false)` clears the flag but does not restore the URL
  (`Config.SandboxOverridesBaseURL`).
- A `Retry-After` value is parsed by `strconv.Atoi`, so a negative number is
  accepted. From -9223372036 to -1 seconds it gives a negative duration, which
  `time.Sleep` does not wait (`Retry.RetryAfterSecondsHonoured`). A number
  too large in either direction for `time.Duration` is accepted as well, and
  the multiplication by `time.Second` wraps around modulo 2^64. Between
  9223372037 and 18446744073 seconds the result is negative, so there is no
  sleep (`Retry.RetryAfterOverflowWraps`). Other values that `Atoi` still
  accepts wrap to arbitrary durations, which may be positive and long:
  18446744074 to 27670116110 seconds give sleeps of up to about 292 years
  (`Retry.RetryAfterWrapsPositive`), and so do -18446744073 to -9223372037
  seconds (`Retry.RetryAfterNegativeWraps`).

## Model

| member | source | states |
|---|---|---|
| `Decimal.AtoiItoa` | client.go:176 | `Atoi` accepts the decimal rendering of an integer exactly when it fits Go's 64-bit `int`, and then returns that integer |
| `Decimal.NatDigitsInjective` | client.go:339 | two naturals with the same decimal rendering are equal |
| `Strings.SplitJoin` | client.go:363 | splitting a comma-joined non-empty list gives back the list when no element contains a comma |
| `Params.Append` | client.go:331 | `url.Values.Add` appends one value to the key's list and leaves every other key as it was |
| `Params.Add` | client.go:329-334 | the empty string changes nothing; any other string is appended once under the key, with earlier values and other keys untouched |
| `Params.AddInt` | client.go:337-342 | a nil integer changes nothing; a present one appends its decimal rendering exactly once |
| `Params.AddBool` | client.go:353-358 | a nil boolean changes nothing; true appends "true" and false appends "false", once |
| `Params.AddStringSlice` | client.go:361-366 | an empty list changes nothing; a non-empty list appends one comma-joined value |
| `Params.AddIntSlice` | client.go:369-378 | an empty list changes nothing; a non-empty list appends one comma-joined value of decimal renderings |
| `Params.IntSliceRoundTrip` | client.go:369-378 | the value appended for a non-empty list of 64-bit integers splits and parses back into exactly that list |
| `Params.StringSliceRoundTrip` | client.go:361-366 | the value appended for a non-empty list of comma-free strings splits back into that list |
| `Params.AbsentValuesAddNothing` | client_test.go:205-225 | chaining an empty string, nil int, nil bool and empty slices onto a new builder leaves it empty |
| `Params.BuilderChainExample` | client_test.go:172-203 | the unit test's chain yields "test", "123", "true", "a,b,c" and "1,2,3" under five keys |
| `ApiErrors.Render` | client.go:284-289 | the rendering starts with "API error " when the vendor code is non-zero, otherwise with "HTTP error ", and ends with the message |
| `ApiErrors.RenderRoundTrip` | client.go:284-289 | for 64-bit fields, parsing the rendering recovers status, code and message |
| `ApiErrors.RenderInjective` | client.go:284-289 | two errors with the same rendering are the same error |
| `ApiErrors.RenderCodedExample` | client_test.go:88-96 | status 400, code 1001, "API key invalid" renders as "API error 1001 (HTTP 400): API key invalid" |
| `ApiErrors.RenderUncodedExample` | client_test.go:97-104 | status 500, code 0 renders as "HTTP error 500: Internal server error" |
| `ApiErrors.IsRateLimit` | client.go:291-298 | holds exactly when the status is 429 or the vendor code is one of the rate-limit codes {1008, 1009, 1010, 1011} |
| `ApiErrors.IsAuthError` | client.go:300-307 | holds exactly when the status is 401 or the vendor code is one of the API-key codes {1001, 1002, 1005, 1007} |
| `ApiErrors.IsPaymentRequired` | client.go:309-314 | holds exactly when the status is 402 or the vendor code is one of the payment codes {1003, 1004} |
| `ApiErrors.ClassesExclusive` | client.go:291-314 | with a status other than 401, 402 and 429, no two predicates hold at once |
| `ApiErrors.ClassificationExamples` | client_test.go:116-170 | the four test cases: 429/1008 is only a rate limit, 401/1001 is only an auth error, 402/1003 only requires payment, and 500 with code 0 is none of them; an added example shows that 429 with code 0 is also only a rate limit |
| `ApiErrors.FromHttpResponse` | client.go:190-211 | the error keeps the HTTP status; an undecodable body gives code 0 and the raw body as message; a decoded body's `error_code` is taken even when it is 0, and its `error_message` replaces the raw body exactly when it is non-null |
| `ApiErrors.FromHttpResponseClass` | client.go:190-211 | whatever the body, a final 429, 401 or 402 response gives a rate-limit, auth or payment error |
| `ApiErrors.UndecodedBodyRendering` | client.go:199-202 | an undecodable body renders as "HTTP error <status>: <raw body>" |
| `ApiErrors.FromEnvelopeStatus` | client.go:261-271 | a non-zero envelope code gives an error with that code and status, its message or "API error" when null, rendered in the "API error" form |
| `Config.Apply` | client.go:52-94 | one option changes only the fields it writes: the key, the URL, the HTTP client, the rate, the sandbox flag or the user agent, and `WithSandbox(true)` also sets the sandbox URL; every other field keeps its value |
| `Config.ApplyAllLastWriterWins` | client.go:98-108 | after the options, every configuration field holds the value of the last option writing it, or its default |
| `Config.NewClient` | client.go:98-121 | the client's key, user agent, transport and rate come from the last option setting them, else the defaults; the bucket size is 1; the base URL is the sandbox URL when the sandbox flag ends up set, else the last URL written |
| `Config.DefaultClient` | client.go:99-104 | with no options: production URL, 30 requests per minute (0.5 per second), 30 s timeout, user agent "go-coinmarketcap/1.0", empty key |
| `Config.SandboxOverridesBaseURL` | client.go:79-87 | sandbox mode gives the sandbox URL even when `WithBaseURL` comes later; a later `WithSandbox(false)` does not restore the earlier URL |
| `HeaderKeys.CanonicalKeyIdempotent` | client.go:145-155 | canonicalising a header name twice is canonicalising it once |
| `HeaderKeys.AcceptExample` | client.go:145 | "accept" is stored under the default's name "Accept" |
| `Requests.BuildURL` | client.go:135-138 | the URL starts with base URL plus endpoint, equals it exactly when there are no parameters, and otherwise continues with "?" followed by exactly the encoded parameters |
| `Requests.DefaultHeadersSpec` | client.go:145-151 | before caller headers, the request has Accept, Accept-Encoding and User-Agent, and the key header exactly when the key is non-empty |
| `Requests.BuildHeadersSpec` | client.go:145-157 | every header holds the caller's last value for its canonical name, or else its default, and no other header is present |
| `Requests.NoKeyNoKeyHeader` | client.go:149-151 | with an empty key and no caller override there is no `X-CMC_PRO_API_KEY` header |
| `Requests.KeyHeaderCarriesKey` | client.go:149-151 | with a key and no caller override the key header carries the key |
| `Requests.CallerHeadersWin` | client.go:153-157 | with distinct caller names, every caller header is present with the caller's value in any iteration order, overriding the defaults and the key |
| `Retry.RunFrom` | client.go:162-188 | from a given attempt: between 1 and the remaining attempts are made; every outcome but the last was retryable and was followed by its sleep; the loop stops early only on a non-retryable outcome |
| `Retry.Run` | client.go:162-188 | at most MaxRetries+1 = 4 transport calls, one sleep between consecutive calls, each sleep the backoff or Retry-After delay of its attempt |
| `Retry.RunStopsAtStopIndex` | client.go:162-188 | the number of calls is one more than the index of the first non-retryable outcome, or 4 when there is none |
| `Retry.LaterOutcomesIrrelevant` | client.go:162-163 | outcomes after the last call do not affect the result, so the transport is called exactly `calls` times |
| `Retry.AllTransportErrors` | client.go:164-170 | four failing calls sleep 1 s, 2 s and 3 s and end in the transport error |
| `Retry.FailTwiceThenAnswer` | client.go:164-168 | two failures then a non-429 answer: three calls with sleeps of 1 s and 2 s |
| `Retry.RateLimitedThroughout` | client.go:172-185 | 429 without Retry-After on every attempt: the same three backoff sleeps, and the fourth 429 is not retried |
| `Retry.RetryAfterSecondsHonoured` | client.go:174-177 | a Retry-After of n whole seconds, for n between -9223372036 and 9223372036, gives a delay of exactly n seconds, negative for a negative n |
| `Retry.RetryAfterFallsBack` | client.go:178-183 | a Retry-After that is not an integer (an HTTP date, for one) falls back to linear backoff |
| `Retry.RetryAfterOverflowWraps` | client.go:177 | a Retry-After between 9223372037 and 18446744073 seconds wraps around `time.Duration` to a negative duration |
| `Retry.RetryAfterNegativeWraps` | client.go:177 | a Retry-After between -18446744073 and -9223372037 seconds wraps around to a positive duration of seconds × 10^9 + 2^64 nanoseconds |
| `Retry.RetryAfterWrapsPositive` | client.go:177 | a Retry-After between 18446744074 and 27670116110 seconds wraps around to a positive duration of seconds × 10^9 − 2^64 nanoseconds |
| `Pipeline.Deliver` | client.go:164-214 | the loop's last outcome decides the delivery: a transport error gives the transport failure after 4 attempts, a status of 400 or more gives the APIError built from that response, and any other response is handed back; each converse holds too |
| `Pipeline.DoRequest` | client.go:130-215 | a cancelled limiter wait gives a failure with no request and no call; after a granted wait a request is built, and the call is refused exactly when its URL is not accepted; otherwise the calls and sleeps are the retry loop's, and the delivery is what its last outcome gives; conversely an answer is the last scripted outcome and is below 400, a transport failure means all 4 calls were made and the last failed, and an APIError is built from a final response of 400 or more |
| `Pipeline.GrantedRequestIsAssembled` | client.go:135-157 | once the limiter grants a token, a request is built; its URL is base URL plus endpoint, followed by "?" and the encoded query when there are parameters; and every header holds the caller's last value for its canonical name, else its default, so caller headers override the defaults in the request actually sent |
| `Pipeline.ErrorResponse` | client.go:190-209 | the error for a final response of 400 or more keeps its status; an undecodable body gives code 0 with the raw body as message; a decoded body gives its `error_code` and its `error_message`, or the raw body when that is null; an unreadable body reads as empty |
| `Pipeline.Decide` | client.go:245-273 | for a response below 400: an unreadable body fails as unreadable, an undecodable one as a decode failure, a non-zero `error_code` gives the APIError with that status and code and its message or "API error", and code 0 gives the decoded envelope; each in both directions |
| `Pipeline.Get` | client.go:236-274 | a cancelled limiter wait, or a granted one whose URL is refused, fails with that failure before any call or sleep; after a granted wait and an accepted URL, the outcome is the transport failure, the APIError of a final response of 400 or more, or the decision on a final response below 400; conversely success means the last response was below 400, readable, decodable and had code 0, with the envelope returned as decoded; an APIError carries the last response's status, with a non-zero code below 400; an unreadable or undecodable body happens only on a final response below 400, and the first exactly when there is no body |
| `Pipeline.LimiterOnlyBeforeLoop` | client.go:131-163 | once the limiter grants a token, the calls and sleeps are exactly those of the retry loop, with no further limiter wait |
| `Pipeline.SuccessIff` | client.go:245-273 | a call succeeds if and only if the limiter grants, the URL is accepted, and the loop's last response is below 400, readable, decodable and has `error_code` 0 |
| `Pipeline.SuccessScenario` | client_test.go:228-269 | a 200 whose envelope has code 0 is returned after one call, with no sleep |
| `Pipeline.InvalidKeyScenario` | client_test.go:271-311 | a 400 whose body has code 1001 and "API key invalid" fails with that APIError, which is an auth error |
| `Pipeline.RetryThenSuccessScenario` | client.go:162-188 | transport failing twice then succeeding: success after three calls and two sleeps |
| `Pipeline.TransportExhaustedScenario` | client.go:164-170 | a transport that always fails: four calls, then a transport failure naming 4 attempts, not an APIError |
| `Pipeline.RateLimitExhaustedScenario` | client.go:172-211 | a 429 on every attempt ends as an APIError with status 429 that is a rate limit |
| `Pipeline.RateLimitCodeNotRetried` | client.go:261-271 | a rate-limit vendor code on an HTTP 200 is not retried: one call, no sleep, a rate-limit APIError |

## Left out

- The token-bucket limiter (`golang.org/x/time/rate`) is a foreign library built for concurrent acquisition. Its `Wait` is an input that either grants a token or fails. `Cancelled` stands for any `Wait` error: a cancelled context, or a deadline too close to wait for a token. The configured rate and the bucket size of 1 are recorded in `Config.Limiter`.
- Real HTTP is not modelled. The transport is a script of outcomes, one per possible attempt.
- `getResponseBody` gzip decompression and reading are not modelled. A body is the decompressed text, or `None` when it cannot be read. A read that fails part-way, yielding partial data, is modelled as unreadable.
- `json.Unmarshal`, `url.Values.Encode` percent-encoding and URL parsing in `http.NewRequestWithContext` are library codecs. They are opaque functions in `Pipeline.Codecs`.
- `time.Sleep` is not modelled: the durations are recorded instead of slept.
- Closing response bodies is not modelled: it is resource management with no effect on any decision.
- `AddFloat` and `AddTime` are not modelled: their float and RFC 3339 time formatting comes from the standard library.
- Go's map iteration order over caller headers is unspecified, so it is an input: the pairs are given in the order they are applied.
- Failures keep their kind and, for the transport, the attempt count. They do not keep the cause that `client.go` wraps with `%w`, such as the limiter error, the request-creation error, the last transport error or the read and unmarshal errors. So `errors.Is` on a failure has no counterpart, and neither does the message text of non-API failures.
- `Config.ClientConfig.rateLimit` is a real number standing for `rate.Limit`, a Go `float64`. Floating-point rounding, `rate.Inf` and NaN are not modelled; the rate only passes through to the limiter.
- A nil `RequestOptions` behaves like empty options, so only the empty case is modelled.
- A nil `WithHTTPClient` argument, which makes the transport call panic, is not modelled.
- The `Status` timestamp is kept as text, because it plays no part in any decision.
- The endpoint wrappers (`cryptocurrency.go`, `exchange.go`, `global.go`), the `types.go` records other than `Status`, the `helpers.go` helpers that return the address of a literal, the examples and the network tests are not part of this model.
- `ApiErrors.RenderRoundTrip`: stated only for status and code values within Go's 64-bit `int`, which is the range the source's `int` fields can hold.

=== FILE: apierrors.dfy ===
/**
 * `APIError`: the structured error surfaced for every failure past the
 * transport, its string rendering, its three classification predicates, and
 * the two ways the request pipeline builds one.
 */
module ApiErrors {
  import opened Wrappers
  import opened Decimal
  import opened Strings
  import opened Envelope

  datatype APIError = APIError(statusCode: int, errorCode: int, message: string)

  /** HTTP status codes the predicates look at. */
  const StatusUnauthorized := 401
  const StatusPaymentRequired := 402
  const StatusTooManyRequests := 429

  /** Vendor codes for the per-minute, daily, monthly and per-IP rate limits. */
  const RateLimitCodes: set<int> := {1008, 1009, 1010, 1011}
  /** Vendor codes for an invalid, missing, required and disabled API key. */
  const AuthCodes: set<int> := {1001, 1002, 1005, 1007}
  /** Vendor codes for a plan that requires payment and a plan whose payment expired. */
  const PaymentCodes: set<int> := {1003, 1004}

  const CodedPrefix := "API error "
  const UncodedPrefix := "HTTP error "

  /**
   * `Error()`: "API error <code> (HTTP <status>): <message>" when a vendor code
   * is present, otherwise "HTTP error <status>: <message>".
   */
  function Render(e: APIError): (s: string)
    ensures e.errorCode != 0 ==> HasPrefix(s, CodedPrefix)
    ensures e.errorCode == 0 ==> HasPrefix(s, UncodedPrefix)
    ensures |s| >= |e.message| && s[|s| - |e.message|..] == e.message
  {
    if e.errorCode != 0 then
      CodedPrefix + (Itoa(e.errorCode) + (" (HTTP " + (Itoa(e.statusCode) + ("): " + e.message))))
    else
      UncodedPrefix + (Itoa(e.statusCode) + (": " + e.message))
  }

  /** `IsRateLimit`: status 429 or one of the rate-limit vendor codes. */
  function IsRateLimit(e: APIError): (b: bool)
    ensures b <==> e.statusCode == StatusTooManyRequests || e.errorCode in RateLimitCodes
  {
    e.statusCode == StatusTooManyRequests
    || e.errorCode == 1008 || e.errorCode == 1009 || e.errorCode == 1010 || e.errorCode == 1011
  }

  /** `IsAuthError`: status 401 or one of the API-key vendor codes. */
  function IsAuthError(e: APIError): (b: bool)
    ensures b <==> e.statusCode == StatusUnauthorized || e.errorCode in AuthCodes
  {
    e.statusCode == StatusUnauthorized
    || e.errorCode == 1001 || e.errorCode == 1002 || e.errorCode == 1005 || e.errorCode == 1007
  }

  /** `IsPaymentRequired`: status 402 or one of the payment vendor codes. */
  function IsPaymentRequired(e: APIError): (b: bool)
    ensures b <==> e.statusCode == StatusPaymentRequired || e.errorCode in PaymentCodes
  {
    e.statusCode == StatusPaymentRequired || e.errorCode == 1003 || e.errorCode == 1004
  }

  /** The three code sets are disjoint, so away from 401, 402 and 429 at most one predicate holds. */
  lemma ClassesExclusive(e: APIError)
    requires e.statusCode !in {401, 402, 429}
    ensures !(IsRateLimit(e) && IsAuthError(e))
    ensures !(IsRateLimit(e) && IsPaymentRequired(e))
    ensures !(IsAuthError(e) && IsPaymentRequired(e))
  {
  }

  /** The classification cases of the unit tests. */
  lemma ClassificationExamples()
    ensures IsRateLimit(APIError(429, 0, "")) && !IsAuthError(APIError(429, 0, ""))
            && !IsPaymentRequired(APIError(429, 0, ""))
    ensures var r := APIError(429, 1008, "");
            IsRateLimit(r) && !IsAuthError(r) && !IsPaymentRequired(r)
    ensures var a := APIError(401, 1001, "");
            !IsRateLimit(a) && IsAuthError(a) && !IsPaymentRequired(a)
    ensures var p := APIError(402, 1003, "");
            !IsRateLimit(p) && !IsAuthError(p) && IsPaymentRequired(p)
    ensures var g := APIError(500, 0, "");
            !IsRateLimit(g) && !IsAuthError(g) && !IsPaymentRequired(g)
  {
  }

  /** The rendering of a coded error in the unit tests. */
  lemma RenderCodedExample()
    ensures Render(APIError(400, 1001, "API key invalid")) == "API error 1001 (HTTP 400): API key invalid"
  {
    ItoaExamples();
    CodedExampleText();
  }

  lemma CodedExampleText()
    ensures CodedPrefix + ("1001" + (" (HTTP " + ("400" + ("): " + "API key invalid"))))
            == "API error 1001 (HTTP 400): API key invalid"
  {
  }

  /** The rendering of an uncoded error in the unit tests. */
  lemma RenderUncodedExample()
    ensures Render(APIError(500, 0, "Internal server error")) == "HTTP error 500: Internal server error"
  {
    ItoaExamples();
    UncodedExampleText();
  }

  lemma UncodedExampleText()
    ensures UncodedPrefix + ("500" + (": " + "Internal server error")) == "HTTP error 500: Internal server error"
  {
  }

  lemma ItoaExamples()
    ensures Itoa(1001) == "1001" && Itoa(400) == "400" && Itoa(500) == "500"
  {
    assert NatDigits(1) == "1";
    assert NatDigits(10) == "10";
    assert NatDigits(100) == "100";
    assert NatDigits(1001) == "1001";
    assert NatDigits(4) == "4";
    assert NatDigits(40) == "40";
    assert NatDigits(400) == "400";
    assert NatDigits(5) == "5";
    assert NatDigits(50) == "50";
    assert NatDigits(500) == "500";
  }

  /** Reads a rendering back into the error it came from. */
  function ParseRendered(s: string): Option<APIError> {
    if HasPrefix(s, CodedPrefix) then ParseCoded(s[|CodedPrefix|..])
    else if HasPrefix(s, UncodedPrefix) then ParseUncoded(s[|UncodedPrefix|..])
    else None
  }

  /** Reads "<code> (HTTP <status>): <message>". */
  function ParseCoded(t: string): Option<APIError> {
    match SplitFirst(t, ' ')
    case None => None
    case Some((codeText, rest)) =>
      if HasPrefix(rest, "(HTTP ") then ParseStatusAndMessage(codeText, rest[6..]) else None
  }

  /** Reads "<status>): <message>" for the vendor code written as `codeText`. */
  function ParseStatusAndMessage(codeText: string, t: string): Option<APIError> {
    match SplitFirst(t, ')')
    case None => None
    case Some((statusText, tail)) =>
      if !HasPrefix(tail, ": ") then None
      else
        match (Atoi(codeText), Atoi(statusText))
        case (Some(code), Some(status)) => Some(APIError(status, code, tail[2..]))
        case _ => None
  }

  /** Reads "<status>: <message>". */
  function ParseUncoded(t: string): Option<APIError> {
    match SplitFirst(t, ':')
    case None => None
    case Some((statusText, tail)) =>
      if !HasPrefix(tail, " ") then None
      else
        match Atoi(statusText)
        case Some(status) => Some(APIError(status, 0, tail[1..]))
        case None => None
  }

  /** The rendering loses nothing: status, code and message can all be read back. */
  lemma RenderRoundTrip(e: APIError)
    requires IsInt64(e.statusCode) && IsInt64(e.errorCode)
    ensures ParseRendered(Render(e)) == Some(e)
  {
    if e.errorCode != 0 {
      CodedRoundTrip(e);
    } else {
      UncodedRoundTrip(e);
    }
  }

  lemma CodedRoundTrip(e: APIError)
    requires IsInt64(e.statusCode) && IsInt64(e.errorCode) && e.errorCode != 0
    ensures ParseRendered(Render(e)) == Some(e)
  {
    var code := Itoa(e.errorCode);
    var status := Itoa(e.statusCode);
    var tail := ": " + e.message;
    var inner := status + ("): " + e.message);
    var rest := "(HTTP " + inner;
    var after := code + (" (HTTP " + inner);
    PrefixDrop(CodedPrefix, after);
    assert ParseCoded(after) == Some(e) by {
      Uncons(" (HTTP ", inner);
      ItoaChars(e.errorCode, ' ');
      SplitFirstAt(code, ' ', rest);
      PrefixDrop("(HTTP ", inner);
      assert ParseStatusAndMessage(code, inner) == Some(e) by {
        Uncons("): ", e.message);
        ItoaChars(e.statusCode, ')');
        SplitFirstAt(status, ')', tail);
        PrefixDrop(": ", e.message);
        AtoiItoa(e.errorCode);
        AtoiItoa(e.statusCode);
      }
    }
  }

  lemma UncodedRoundTrip(e: APIError)
    requires IsInt64(e.statusCode) && e.errorCode == 0
    ensures ParseRendered(Render(e)) == Some(e)
  {
    var status := Itoa(e.statusCode);
    var tail := " " + e.message;
    var after := status + (": " + e.message);
    var s := Render(e);
    assert !HasPrefix(s, CodedPrefix) by {
      assert s[0] == 'H';
    }
    PrefixDrop(UncodedPrefix, after);
    assert ParseUncoded(after) == Some(e) by {
      Uncons(": ", e.message);
      ItoaChars(e.statusCode, ':');
      SplitFirstAt(status, ':', tail);
      PrefixDrop(" ", e.message);
      AtoiItoa(e.statusCode);
    }
  }

  /** Two errors (with 64-bit fields) that render alike are the same error. */
  lemma RenderInjective(a: APIError, b: APIError)
    requires IsInt64(a.statusCode) && IsInt64(a.errorCode)
    requires IsInt64(b.statusCode) && IsInt64(b.errorCode)
    requires Render(a) == Render(b)
    ensures a == b
  {
    RenderRoundTrip(a);
    RenderRoundTrip(b);
  }

  /**
   * The error built for a response with status 400 or more: the raw body is
   * the message; when the body decodes, its `error_code` is taken (even 0)
   * and a non-null `error_message` replaces the raw body.
   */
  function FromHttpResponse(statusCode: int, body: string, decoded: Option<Status>): (e: APIError)
    ensures e.statusCode == statusCode
    ensures decoded.None? ==> e.errorCode == 0 && e.message == body
    ensures decoded.Some? ==> e.errorCode == decoded.value.errorCode
    ensures decoded.Some? && decoded.value.errorMessage.Some? ==> e.message == decoded.value.errorMessage.value
    ensures decoded.Some? && decoded.value.errorMessage.None? ==> e.message == body
    ensures e.errorCode != 0 ==> decoded.Some? && decoded.value.errorCode == e.errorCode
    ensures e.message != body ==> decoded.Some? && decoded.value.errorMessage == Some(e.message)
  {
    match decoded
    case None => APIError(statusCode, 0, body)
    case Some(st) => APIError(statusCode, st.errorCode, st.errorMessage.GetOr(body))
  }

  /** Whatever the body, a 429, 401 or 402 response yields an error of the matching class. */
  lemma FromHttpResponseClass(statusCode: int, body: string, decoded: Option<Status>)
    ensures statusCode == 429 ==> IsRateLimit(FromHttpResponse(statusCode, body, decoded))
    ensures statusCode == 401 ==> IsAuthError(FromHttpResponse(statusCode, body, decoded))
    ensures statusCode == 402 ==> IsPaymentRequired(FromHttpResponse(statusCode, body, decoded))
  {
  }

  /** A body that does not decode renders as "HTTP error <status>: <raw body>". */
  lemma UndecodedBodyRendering(statusCode: int, body: string)
    ensures Render(FromHttpResponse(statusCode, body, None))
            == UncodedPrefix + Itoa(statusCode) + ": " + body
  {
  }

  /**
   * The error built for a successful response whose envelope carries a
   * non-zero `error_code`: that code, and its message or "API error" when the
   * message is null.
   */
  function FromEnvelopeStatus(statusCode: int, st: Status): (e: APIError)
    requires st.errorCode != 0
    ensures e.statusCode == statusCode && e.errorCode == st.errorCode
    ensures st.errorMessage.None? ==> e.message == "API error"
    ensures st.errorMessage.Some? ==> e.message == st.errorMessage.value
    ensures HasPrefix(Render(e), CodedPrefix)
  {
    APIError(statusCode, st.errorCode, st.errorMessage.GetOr("API error"))
  }
}

=== FILE: config.dfy ===
/**
 * Client construction: a configuration record filled with defaults, the
 * functional options applied to it in order, and the sandbox flag forcing the
 * sandbox base URL at the end.
 */
module Config {
  import opened Wrappers

  const DefaultBaseURL := "https://pro-api.coinmarketcap.com"
  const SandboxBaseURL := "https://sandbox-api.coinmarketcap.com"
  /** One second of `time.Duration`, which counts nanoseconds. */
  const Second: int := 1_000_000_000
  const DefaultTimeout: int := 30 * Second
  /** Requests per minute of the basic plan. */
  const DefaultRateLimit: int := 30
  const DefaultUserAgent := "go-coinmarketcap/1.0"

  /** The HTTP transport: the default one with its timeout, or one injected by the caller. */
  datatype HttpClient = StandardClient(timeout: int) | InjectedClient(handle: nat)

  datatype ClientConfig = ClientConfig(
    apiKey: string,
    baseURL: string,
    httpClient: HttpClient,
    rateLimit: real,
    sandbox: bool,
    userAgent: string)

  /** The token-bucket limiter: refill rate in requests per second and bucket size. */
  datatype Limiter = Limiter(limit: real, burst: nat)

  datatype Client = Client(
    apiKey: string,
    baseURL: string,
    httpClient: HttpClient,
    rateLimiter: Limiter,
    userAgent: string)

  /** The functional options, one constructor per `With*` function. */
  datatype ClientOption =
    | WithAPIKey(apiKey: string)
    | WithBaseURL(baseURL: string)
    | WithHTTPClient(client: HttpClient)
    | WithRateLimit(limit: real)
    | WithSandbox(sandbox: bool)
    | WithUserAgent(userAgent: string)

  /** The configuration before any option. */
  const Defaults := ClientConfig(
    apiKey := "",
    baseURL := DefaultBaseURL,
    httpClient := StandardClient(DefaultTimeout),
    rateLimit := (DefaultRateLimit as real) / 60.0,
    sandbox := false,
    userAgent := DefaultUserAgent)

  /**
   * What one option does to the configuration: each field takes the value the
   * option writes to it, if any, and otherwise keeps its value.
   */
  function Apply(c: ClientConfig, o: ClientOption): (r: ClientConfig)
    ensures r.apiKey == KeyWrite(o).GetOr(c.apiKey)
    ensures r.baseURL == BaseURLWrite(o).GetOr(c.baseURL)
    ensures r.httpClient == ClientWrite(o).GetOr(c.httpClient)
    ensures r.rateLimit == RateWrite(o).GetOr(c.rateLimit)
    ensures r.sandbox == SandboxWrite(o).GetOr(c.sandbox)
    ensures r.userAgent == AgentWrite(o).GetOr(c.userAgent)
  {
    match o
    case WithAPIKey(k) => c.(apiKey := k)
    case WithBaseURL(u) => c.(baseURL := u)
    case WithHTTPClient(h) => c.(httpClient := h)
    case WithRateLimit(l) => c.(rateLimit := l)
    case WithSandbox(s) => if s then c.(sandbox := s, baseURL := SandboxBaseURL) else c.(sandbox := s)
    case WithUserAgent(a) => c.(userAgent := a)
  }

  /** Applies the options front to back, as the loop of `NewClient` does. */
  function ApplyAll(c: ClientConfig, opts: seq<ClientOption>): ClientConfig
    decreases |opts|
  {
    if |opts| == 0 then c else ApplyAll(Apply(c, opts[0]), opts[1..])
  }

  /** Applying a list and then one more option is applying the longer list. */
  lemma {:induction false} ApplyAllSnoc(c: ClientConfig, opts: seq<ClientOption>, o: ClientOption)
    ensures ApplyAll(c, opts + [o]) == Apply(ApplyAll(c, opts), o)
    decreases |opts|
  {
    if |opts| > 0 {
      assert (opts + [o])[1..] == opts[1..] + [o];
      ApplyAllSnoc(Apply(c, opts[0]), opts[1..], o);
    }
  }

  /**
   * The value written by the last option that writes one, according to
   * `writes`, independent of how the options are applied.
   */
  function LastWrite<V>(opts: seq<ClientOption>, writes: ClientOption -> Option<V>): Option<V>
    decreases |opts|
  {
    if |opts| == 0 then None
    else if writes(opts[|opts| - 1]).Some? then writes(opts[|opts| - 1])
    else LastWrite(opts[..|opts| - 1], writes)
  }

  function KeyWrite(o: ClientOption): Option<string> {
    if o.WithAPIKey? then Some(o.apiKey) else None
  }

  /** Options that set the base URL: `WithBaseURL`, and `WithSandbox(true)`. */
  function BaseURLWrite(o: ClientOption): Option<string> {
    match o
    case WithBaseURL(u) => Some(u)
    case WithSandbox(true) => Some(SandboxBaseURL)
    case _ => None
  }

  function ClientWrite(o: ClientOption): Option<HttpClient> {
    if o.WithHTTPClient? then Some(o.client) else None
  }

  function RateWrite(o: ClientOption): Option<real> {
    if o.WithRateLimit? then Some(o.limit) else None
  }

  function SandboxWrite(o: ClientOption): Option<bool> {
    if o.WithSandbox? then Some(o.sandbox) else None
  }

  function AgentWrite(o: ClientOption): Option<string> {
    if o.WithUserAgent? then Some(o.userAgent) else None
  }

  /** Every field of the configuration holds what the last option writing it wrote, or its default. */
  lemma {:induction false} ApplyAllLastWriterWins(opts: seq<ClientOption>)
    ensures var c := ApplyAll(Defaults, opts);
            && c.apiKey == LastWrite(opts, KeyWrite).GetOr("")
            && c.baseURL == LastWrite(opts, BaseURLWrite).GetOr(DefaultBaseURL)
            && c.httpClient == LastWrite(opts, ClientWrite).GetOr(StandardClient(DefaultTimeout))
            && c.rateLimit == LastWrite(opts, RateWrite).GetOr(0.5)
            && c.sandbox == LastWrite(opts, SandboxWrite).GetOr(false)
            && c.userAgent == LastWrite(opts, AgentWrite).GetOr(DefaultUserAgent)
    decreases |opts|
  {
    if |opts| > 0 {
      var init := opts[..|opts| - 1];
      ApplyAllLastWriterWins(init);
      var last := opts[|opts| - 1];
      assert init + [last] == opts;
      ApplyAllSnoc(Defaults, init, last);
      match last
      case WithAPIKey(_) =>
      case WithBaseURL(_) =>
      case WithHTTPClient(_) =>
      case WithRateLimit(_) =>
      case WithSandbox(_) =>
      case WithUserAgent(_) =>
    }
  }

  /**
   * `NewClient`: defaults, then the options in order, then the sandbox URL
   * forced when the sandbox flag ended up set; the limiter has a bucket of one.
   */
  function NewClient(opts: seq<ClientOption>): (client: Client)
    ensures client.apiKey == LastWrite(opts, KeyWrite).GetOr("")
    ensures client.userAgent == LastWrite(opts, AgentWrite).GetOr(DefaultUserAgent)
    ensures client.httpClient == LastWrite(opts, ClientWrite).GetOr(StandardClient(DefaultTimeout))
    ensures client.rateLimiter == Limiter(LastWrite(opts, RateWrite).GetOr(0.5), 1)
    ensures LastWrite(opts, SandboxWrite) == Some(true) ==> client.baseURL == SandboxBaseURL
    ensures LastWrite(opts, SandboxWrite) != Some(true)
            ==> client.baseURL == LastWrite(opts, BaseURLWrite).GetOr(DefaultBaseURL)
  {
    ApplyAllLastWriterWins(opts);
    var c := ApplyAll(Defaults, opts);
    var baseURL := if c.sandbox then SandboxBaseURL else c.baseURL;
    Client(c.apiKey, baseURL, c.httpClient, Limiter(c.rateLimit, 1), c.userAgent)
  }

  /** With no options the client has the documented defaults: 30 requests a minute is 0.5 a second. */
  lemma DefaultClient()
    ensures NewClient([]) == Client("", DefaultBaseURL, StandardClient(30 * Second), Limiter(0.5, 1), "go-coinmarketcap/1.0")
  {
  }

  /** Sandbox mode wins over any base URL, whichever option came later. */
  lemma SandboxOverridesBaseURL(key: string, url: string)
    ensures NewClient([WithAPIKey(key), WithSandbox(true)]).baseURL == SandboxBaseURL
    ensures NewClient([WithSandbox(true), WithBaseURL(url)]).baseURL == SandboxBaseURL
    ensures NewClient([WithBaseURL(url), WithSandbox(true), WithSandbox(false)]).baseURL == SandboxBaseURL
  {
    var a := [WithSandbox(true), WithBaseURL(url)];
    assert a[..1] == [WithSandbox(true)];
    assert LastWrite(a[..1], SandboxWrite) == Some(true);
    assert LastWrite(a, SandboxWrite) == Some(true);
    var b := [WithBaseURL(url), WithSandbox(true), WithSandbox(false)];
    assert b[..2] == [WithBaseURL(url), WithSandbox(true)];
    assert LastWrite(b[..2], BaseURLWrite) == Some(SandboxBaseURL);
    assert LastWrite(b, BaseURLWrite) == Some(SandboxBaseURL);
  }
}

=== FILE: decimal.dfy ===
/**
 * Decimal rendering and parsing of integers, as Go's `strconv.Itoa`, the `%d`
 * verb of `fmt` and `strconv.Atoi` (on a 64-bit platform) perform them.
 */
module Decimal {
  import opened Wrappers

  /** Bounds of Go's `int` on a 64-bit platform. */
  const Int64Min: int := -0x8000_0000_0000_0000
  const Int64Max: int := 0x7FFF_FFFF_FFFF_FFFF

  predicate IsInt64(n: int) {
    Int64Min <= n <= Int64Max
  }

  predicate IsDigit(c: char) {
    '0' <= c <= '9'
  }

  predicate AllDigits(s: string) {
    forall i :: 0 <= i < |s| ==> IsDigit(s[i])
  }

  function DigitChar(d: nat): (c: char)
    requires d < 10
    ensures IsDigit(c)
  {
    (('0' as int) + d) as char
  }

  function DigitValue(c: char): (d: nat)
    requires IsDigit(c)
    ensures d < 10
  {
    (c as int) - ('0' as int)
  }

  /** Decimal digits of `n`, most significant first. */
  function NatDigits(n: nat): (s: string)
    ensures |s| >= 1 && AllDigits(s)
    ensures s[0] == '0' ==> n == 0
  {
    if n < 10 then [DigitChar(n)] else NatDigits(n / 10) + [DigitChar(n % 10)]
  }

  /** The number a run of decimal digits denotes (leading zeros allowed; the empty run denotes 0). */
  function DigitsValue(s: string): nat
    requires AllDigits(s)
  {
    if |s| == 0 then 0 else DigitsValue(s[..|s| - 1]) * 10 + DigitValue(s[|s| - 1])
  }

  lemma {:induction false} DigitsValueOfNatDigits(n: nat)
    ensures DigitsValue(NatDigits(n)) == n
  {
    if n >= 10 {
      var s := NatDigits(n);
      assert s[..|s| - 1] == NatDigits(n / 10);
      DigitsValueOfNatDigits(n / 10);
      assert DigitValue(DigitChar(n % 10)) == n % 10;
    } else {
      assert DigitValue(DigitChar(n)) == n;
    }
  }

  /** `strconv.Itoa(n)`, identical to `fmt`'s `%d`: a minus sign for negatives, no leading zeros. */
  function Itoa(n: int): (s: string)
    ensures |s| >= 1
    ensures (s[0] == '-') <==> n < 0
    ensures n >= 0 ==> AllDigits(s)
    ensures n < 0 ==> |s| >= 2 && AllDigits(s[1..])
  {
    if n < 0 then "-" + NatDigits(-n) else NatDigits(n)
  }

  /**
   * `strconv.Atoi(s)`: an optional `+` or `-` sign followed by at least one
   * decimal digit, whose value fits Go's 64-bit `int`; anything else (the empty
   * string, spaces, a fraction, an HTTP date, an out-of-range value) is an error.
   */
  function Atoi(s: string): (r: Option<int>)
    ensures r.Some? ==> IsInt64(r.value)
    ensures r.Some? ==> |s| >= 1 && (IsDigit(s[0]) || s[0] == '-' || s[0] == '+')
  {
    var signed := |s| > 0 && (s[0] == '-' || s[0] == '+');
    var digits := if signed then s[1..] else s;
    if |digits| == 0 || !AllDigits(digits) then None
    else
      var magnitude: int := DigitsValue(digits);
      var v: int := if signed && s[0] == '-' then -magnitude else magnitude;
      if IsInt64(v) then Some(v) else None
  }

  /** Parsing accepts exactly the renderings of 64-bit integers, and gives the integer back. */
  lemma AtoiItoa(n: int)
    ensures Atoi(Itoa(n)).Some? <==> IsInt64(n)
    ensures IsInt64(n) ==> Atoi(Itoa(n)) == Some(n)
  {
    var s := Itoa(n);
    if n < 0 {
      assert s[1..] == NatDigits(-n);
      DigitsValueOfNatDigits(-n);
    } else {
      DigitsValueOfNatDigits(n);
    }
  }

  /** The rendering never contains anything but a leading minus sign and digits. */
  lemma ItoaChars(n: int, c: char)
    requires c != '-' && !IsDigit(c)
    ensures c !in Itoa(n)
  {
  }

  /** The rendering loses nothing: distinct integers render differently. */
  lemma {:induction false} NatDigitsInjective(a: nat, b: nat)
    requires NatDigits(a) == NatDigits(b)
    ensures a == b
  {
    DigitsValueOfNatDigits(a);
    DigitsValueOfNatDigits(b);
  }
}

=== FILE: envelope.dfy ===
/** The response envelope every endpoint returns: a payload and a status block. */
module Envelope {
  import opened Wrappers

  /**
   * The `status` block. `errorCode` 0 means success; `errorMessage` is JSON
   * `null` when `None`. The timestamp is kept as its RFC 3339 text.
   */
  datatype Status = Status(
    timestamp: string,
    errorCode: int,
    errorMessage: Option<string>,
    elapsed: int,
    creditCount: int)

  /** `APIResponse[T]`. */
  datatype Envelope<T> = Envelope(data: T, status: Status)
}

=== FILE: headerkeys.dfy ===
/**
 * The canonical form Go's `http.Header.Set` gives a header name before storing
 * it: when every character is a token character, the first letter and every
 * letter after a hyphen are upper-cased and all other letters lower-cased;
 * any other name is kept as it is. So "accept" and "ACCEPT" name the same
 * header as "Accept".
 */
module HeaderKeys {

  predicate IsLower(c: char) { 'a' <= c <= 'z' }
  predicate IsUpper(c: char) { 'A' <= c <= 'Z' }

  /** A character allowed in a header name (an HTTP token character). */
  predicate IsTokenChar(c: char) {
    IsLower(c) || IsUpper(c) || ('0' <= c <= '9') || c in "!#$%&'*+-.^_`|~"
  }

  predicate IsToken(s: string) {
    forall i :: 0 <= i < |s| ==> IsTokenChar(s[i])
  }

  function ToUpper(c: char): char requires IsLower(c) { ((c as int) - 32) as char }
  function ToLower(c: char): char requires IsUpper(c) { ((c as int) + 32) as char }

  /** Re-cases `s`, `upper` telling whether the first character starts a word. */
  function Recase(s: string, upper: bool): (r: string)
    ensures |r| == |s|
    ensures forall i :: 0 <= i < |s| ==> (r[i] == '-' <==> s[i] == '-')
    ensures forall i :: 0 <= i < |s| ==> (IsTokenChar(r[i]) <==> IsTokenChar(s[i]))
  {
    if |s| == 0 then ""
    else
      var c := s[0];
      var c' := if upper && IsLower(c) then ToUpper(c)
                else if !upper && IsUpper(c) then ToLower(c)
                else c;
      [c'] + Recase(s[1..], c' == '-')
  }

  /** `textproto.CanonicalMIMEHeaderKey`. */
  function CanonicalKey(s: string): (r: string)
    ensures |r| == |s|
    ensures IsToken(r) <==> IsToken(s)
  {
    if IsToken(s) then Recase(s, true) else s
  }

  /** Re-casing an already re-cased name changes nothing. */
  lemma {:induction false} RecaseIdempotent(s: string, upper: bool)
    ensures Recase(Recase(s, upper), upper) == Recase(s, upper)
  {
    if |s| > 0 {
      var r := Recase(s, upper);
      RecaseIdempotent(s[1..], r[0] == '-');
      assert r[1..] == Recase(s[1..], r[0] == '-');
    }
  }

  /** Canonicalising twice is canonicalising once. */
  lemma CanonicalKeyIdempotent(s: string)
    ensures CanonicalKey(CanonicalKey(s)) == CanonicalKey(s)
  {
    if IsToken(s) {
      RecaseIdempotent(s, true);
    }
  }

  /** A lower-case name is canonicalised to the spelling the request defaults use. */
  lemma AcceptExample()
    ensures CanonicalKey("accept") == "Accept"
  {
    assert IsToken("accept");
    assert Recase("t", false) == "t";
    assert Recase("pt", false) == "pt";
    assert Recase("ept", false) == "ept";
    assert Recase("cept", false) == "cept";
    assert Recase("ccept", false) == "ccept";
  }
}

=== FILE: params.dfy ===
/**
 * The query-parameter builder (`ParamBuilder`): a `url.Values`, i.e. a map from
 * parameter name to the list of its values in the order they were added.
 * Each `Add*` operation either appends exactly one formatted value to one key's
 * list or, for an absent input, leaves the parameters as they were.
 */
module Params {
  import opened Wrappers
  import opened Decimal
  import opened Strings

  type Params = map<string, seq<string>>

  /** `NewParamBuilder()`: no parameters. */
  const Empty: Params := map[]

  /** The values recorded for `key`, in insertion order (none when the key is missing). */
  function Values(p: Params, key: string): seq<string> {
    if key in p then p[key] else []
  }

  /** `url.Values.Get`: the first value for `key`, or "" when there is none. */
  function Get(p: Params, key: string): string {
    var vs := Values(p, key);
    if |vs| == 0 then "" else vs[0]
  }

  /** `r` is `p` with `value` appended to the list of `key`, and nothing else changed. */
  ghost predicate AppendedOnce(p: Params, r: Params, key: string, value: string) {
    && r.Keys == p.Keys + {key}
    && r[key] == Values(p, key) + [value]
    && forall k :: k in p && k != key ==> r[k] == p[k]
  }

  /** `url.Values.Add`. */
  function Append(p: Params, key: string, value: string): (r: Params)
    ensures AppendedOnce(p, r, key, value)
  {
    p[key := Values(p, key) + [value]]
  }

  /** `Add`: appends a non-empty string; the empty string counts as absent. */
  function Add(p: Params, key: string, value: string): (r: Params)
    ensures value == "" ==> r == p
    ensures value != "" ==> AppendedOnce(p, r, key, value)
  {
    if value != "" then Append(p, key, value) else p
  }

  /** `AddInt`: appends the decimal rendering of a present integer. */
  function AddInt(p: Params, key: string, value: Option<int>): (r: Params)
    ensures value.None? ==> r == p
    ensures value.Some? ==> AppendedOnce(p, r, key, Itoa(value.value))
  {
    if value.Some? then Append(p, key, Itoa(value.value)) else p
  }

  /** `strconv.FormatBool`. */
  function FormatBool(b: bool): string {
    if b then "true" else "false"
  }

  /** `AddBool`: appends "true" or "false" for a present boolean. */
  function AddBool(p: Params, key: string, value: Option<bool>): (r: Params)
    ensures value.None? ==> r == p
    ensures value == Some(true) ==> AppendedOnce(p, r, key, "true")
    ensures value == Some(false) ==> AppendedOnce(p, r, key, "false")
  {
    if value.Some? then Append(p, key, FormatBool(value.value)) else p
  }

  /** `AddStringSlice`: appends the comma-joined list when it is non-empty. */
  function AddStringSlice(p: Params, key: string, values: seq<string>): (r: Params)
    ensures |values| == 0 ==> r == p
    ensures |values| > 0 ==> AppendedOnce(p, r, key, Join(values, ','))
  {
    if |values| > 0 then Append(p, key, Join(values, ',')) else p
  }

  /** Each integer of a list in decimal. */
  function IntStrings(values: seq<int>): (r: seq<string>)
    ensures |r| == |values|
    ensures forall i :: 0 <= i < |values| ==> r[i] == Itoa(values[i])
  {
    seq(|values|, i requires 0 <= i < |values| => Itoa(values[i]))
  }

  /** `AddIntSlice`: appends the comma-joined decimal renderings when the list is non-empty. */
  function AddIntSlice(p: Params, key: string, values: seq<int>): (r: Params)
    ensures |values| == 0 ==> r == p
    ensures |values| > 0 ==> AppendedOnce(p, r, key, Join(IntStrings(values), ','))
  {
    if |values| > 0 then Append(p, key, Join(IntStrings(values), ',')) else p
  }

  /** `Build`: the values collected so far. */
  function Build(p: Params): Params {
    p
  }

  /** Reads a comma-joined list of integers back, failing on any piece that is not one. */
  function ParseIntList(s: string): Option<seq<int>> {
    ParseInts(Split(s, ','))
  }

  function ParseInts(pieces: seq<string>): Option<seq<int>> {
    if |pieces| == 0 then Some([])
    else
      match (Atoi(pieces[0]), ParseInts(pieces[1..]))
      case (Some(n), Some(rest)) => Some([n] + rest)
      case _ => None
  }

  lemma {:induction false} ParseIntsOfRenderings(values: seq<int>)
    requires forall i :: 0 <= i < |values| ==> IsInt64(values[i])
    ensures ParseInts(IntStrings(values)) == Some(values)
  {
    if |values| > 0 {
      AtoiItoa(values[0]);
      assert IntStrings(values)[1..] == IntStrings(values[1..]);
      ParseIntsOfRenderings(values[1..]);
      assert [values[0]] + values[1..] == values;
    }
  }

  /** The value `AddIntSlice` appends reads back as exactly the given 64-bit integers. */
  lemma IntSliceRoundTrip(key: string, values: seq<int>)
    requires |values| > 0
    requires forall i :: 0 <= i < |values| ==> IsInt64(values[i])
    ensures ParseIntList(Get(AddIntSlice(Empty, key, values), key)) == Some(values)
  {
    var parts := IntStrings(values);
    forall i | 0 <= i < |parts|
      ensures ',' !in parts[i]
    {
      ItoaChars(values[i], ',');
    }
    SplitJoin(parts, ',');
    ParseIntsOfRenderings(values);
  }

  /** The value `AddStringSlice` appends splits back into the given strings when none holds a comma. */
  lemma StringSliceRoundTrip(key: string, values: seq<string>)
    requires |values| > 0
    requires forall i :: 0 <= i < |values| ==> ',' !in values[i]
    ensures Split(Get(AddStringSlice(Empty, key, values), key), ',') == values
  {
    SplitJoin(values, ',');
  }

  /** Absent inputs of every kind leave a fresh builder empty. */
  lemma AbsentValuesAddNothing(key: string)
    ensures AddStringSlice(AddIntSlice(AddBool(AddInt(Add(Empty, key, ""), key, None), key, None), key, []), key, []) == Empty
  {
  }

  /** The builder chain of the unit test: one value per key, read back with `Get`. */
  lemma BuilderChainExample()
    ensures var p := Build(AddIntSlice(AddStringSlice(AddBool(AddInt(Add(Empty,
                       "string", "test"), "int", Some(123)), "bool", Some(true)),
                       "slice", ["a", "b", "c"]), "intslice", [1, 2, 3]));
            && Get(p, "string") == "test"
            && Get(p, "int") == "123"
            && Get(p, "bool") == "true"
            && Get(p, "slice") == "a,b,c"
            && Get(p, "intslice") == "1,2,3"
            && p.Keys == {"string", "int", "bool", "slice", "intslice"}
  {
    var p1 := Add(Empty, "string", "test");
    var p2 := AddInt(p1, "int", Some(123));
    var p3 := AddBool(p2, "bool", Some(true));
    var p4 := AddStringSlice(p3, "slice", ["a", "b", "c"]);
    var p5 := AddIntSlice(p4, "intslice", [1, 2, 3]);
    ItoaSmallExamples();
    JoinExamples();
    assert p1.Keys == {"string"} && p1["string"] == ["test"];
    assert p2.Keys == {"string", "int"} && p2["int"] == ["123"] && p2["string"] == ["test"];
    assert p3.Keys == {"string", "int", "bool"} && p3["bool"] == ["true"];
    assert p3["string"] == ["test"] && p3["int"] == ["123"];
    assert p4.Keys == {"string", "int", "bool", "slice"} && p4["slice"] == ["a,b,c"];
    assert p4["string"] == ["test"] && p4["int"] == ["123"] && p4["bool"] == ["true"];
    assert p5["intslice"] == ["1,2,3"];
  }

  lemma ItoaSmallExamples()
    ensures Itoa(123) == "123" && IntStrings([1, 2, 3]) == ["1", "2", "3"]
  {
    assert NatDigits(12) == "12";
  }

  lemma JoinExamples()
    ensures Join(["1", "2", "3"], ',') == "1,2,3"
    ensures Join(["a", "b", "c"], ',') == "a,b,c"
  {
    assert Join(["3"], ',') == "3";
    assert Join(["2", "3"], ',') == "2,3";
    assert Join(["c"], ',') == "c";
    assert Join(["b", "c"], ',') == "b,c";
  }
}

=== FILE: pipeline.dfy ===
/**
 * One typed GET call: `doRequest` (limiter, request assembly, retry loop,
 * error for status 400 and above) followed by the decision part of `get`
 * (body reading, envelope decoding, error for a non-zero `error_code`).
 * The limiter's wait, the transport's outcomes and the codecs are inputs.
 */
module Pipeline {
  import opened Wrappers
  import opened Params
  import opened Envelope
  import opened ApiErrors
  import opened Config
  import opened Requests
  import opened Retry

  /** What the limiter's `Wait` did: hand out a token, or return because the context was cancelled. */
  datatype LimiterWait = Granted | Cancelled

  /**
   * The library code the pipeline calls but that is not part of this model:
   * `url.Values.Encode`, whether `http.NewRequestWithContext` accepts the URL,
   * and `json.Unmarshal` into the status block and into the whole envelope.
   */
  datatype Codecs<T> = Codecs(
    encodeQuery: Params -> string,
    acceptsURL: string -> bool,
    decodeStatus: string -> Option<Status>,
    decodeEnvelope: string -> Option<Envelope<T>>)

  /** `RequestOptions`: query parameters and extra headers (a nil options value behaves as empty ones). */
  datatype RequestOptions = RequestOptions(queryParams: Params, headers: seq<(string, string)>)

  /** The failures a call can end with. */
  datatype FailureKind =
    | LimiterCancelled
    | RequestNotCreated
    | TransportFailed(attempts: nat)
    | Api(error: APIError)
    | BodyUnreadable
    | DecodeFailed

  /** What `doRequest` hands back: a response below 400, or a failure. */
  datatype Delivery = Answered(response: Response) | Refused(failure: FailureKind)

  /** A `doRequest` run: its delivery, the request it built, the transport calls made and the sleeps taken. */
  datatype Exchange = Exchange(delivery: Delivery, request: Option<Request>, calls: nat, sleeps: seq<int>)

  datatype Outcome<T> = Success(envelope: Envelope<T>) | Failure(failure: FailureKind)

  /** A `get` run: its outcome and the record of the `doRequest` beneath it. */
  datatype Call<T> = Call(outcome: Outcome<T>, request: Option<Request>, calls: nat, sleeps: seq<int>)

  function AssembleRequest<T>(client: Client, endpoint: string, opts: RequestOptions, codecs: Codecs<T>): Request {
    Request(BuildURL(client.baseURL, endpoint, opts.queryParams, codecs.encodeQuery),
            BuildHeaders(client, opts.headers))
  }

  /**
   * The error for a final response of status 400 or more: the raw body is the
   * message unless the body decodes; an unreadable body reads as empty.
   */
  function ErrorResponse<T>(resp: Response, codecs: Codecs<T>): (e: APIError)
    ensures e.statusCode == resp.statusCode
    ensures resp.body.None? ==> e == APIError(resp.statusCode, 0, "")
    ensures resp.body.Some? && codecs.decodeStatus(resp.body.value).None?
            ==> e.errorCode == 0 && e.message == resp.body.value
    ensures resp.body.Some? && codecs.decodeStatus(resp.body.value).Some? ==>
              var st := codecs.decodeStatus(resp.body.value).value;
              && e.errorCode == st.errorCode
              && e.message == st.errorMessage.GetOr(resp.body.value)
  {
    var decoded := if resp.body.Some? then codecs.decodeStatus(resp.body.value) else None;
    FromHttpResponse(resp.statusCode, resp.body.GetOr(""), decoded)
  }

  /** The request sent when the call gets that far. */
  ghost predicate Sendable<T>(client: Client, endpoint: string, opts: RequestOptions, codecs: Codecs<T>) {
    codecs.acceptsURL(AssembleRequest(client, endpoint, opts, codecs).url)
  }

  /**
   * What `doRequest` makes of the loop's last outcome: a transport error after
   * the last attempt, an APIError for a status of 400 or more, the response otherwise.
   */
  function Deliver<T>(last: Attempt, codecs: Codecs<T>): (d: Delivery)
    ensures d == Refused(TransportFailed(MaxRetries + 1)) <==> last.TransportError?
    ensures d.Refused? && d.failure.Api? <==> last.Delivered? && last.response.statusCode >= 400
    ensures d.Refused? && d.failure.Api? ==> d.failure.error == ErrorResponse(last.response, codecs)
    ensures d.Answered? <==> last.Delivered? && last.response.statusCode < 400
    ensures d.Answered? ==> d.response == last.response
  {
    match last
    case TransportError => Refused(TransportFailed(MaxRetries + 1))
    case Delivered(resp) =>
      if resp.statusCode >= 400 then Refused(Api(ErrorResponse(resp, codecs))) else Answered(resp)
  }

  /**
   * What `get` makes of a response below 400: an unreadable body, an
   * undecodable body, an APIError for a non-zero `error_code`, or the envelope.
   */
  function Decide<T>(resp: Response, codecs: Codecs<T>): (o: Outcome<T>)
    ensures o == Failure(BodyUnreadable) <==> resp.body.None?
    ensures o == Failure(DecodeFailed) <==> resp.body.Some? && codecs.decodeEnvelope(resp.body.value).None?
    ensures o.Failure? && o.failure.Api? <==>
              resp.body.Some? && codecs.decodeEnvelope(resp.body.value).Some?
              && codecs.decodeEnvelope(resp.body.value).value.status.errorCode != 0
    ensures o.Failure? && o.failure.Api? ==>
              var st := codecs.decodeEnvelope(resp.body.value).value.status;
              st.errorCode != 0 && o.failure.error == FromEnvelopeStatus(resp.statusCode, st)
    ensures o.Success? <==>
              resp.body.Some? && codecs.decodeEnvelope(resp.body.value).Some?
              && codecs.decodeEnvelope(resp.body.value).value.status.errorCode == 0
    ensures o.Success? ==> Some(o.envelope) == codecs.decodeEnvelope(resp.body.value)
    ensures o.Failure? ==> o.failure in {BodyUnreadable, DecodeFailed} || o.failure.Api?
  {
    match resp.body
    case None => Failure(BodyUnreadable)
    case Some(body) =>
      match codecs.decodeEnvelope(body)
      case None => Failure(DecodeFailed)
      case Some(env) =>
        if env.status.errorCode != 0 then Failure(Api(FromEnvelopeStatus(resp.statusCode, env.status)))
        else Success(env)
  }

  /** `doRequest`. */
  function DoRequest<T>(client: Client, wait: LimiterWait, endpoint: string, opts: RequestOptions,
                        codecs: Codecs<T>, script: seq<Attempt>): (x: Exchange)
    requires |script| == MaxRetries + 1
    ensures wait.Cancelled? ==> x == Exchange(Refused(LimiterCancelled), None, 0, [])
    ensures wait.Granted? ==> x.request.Some?
    ensures wait.Granted? && x.request.Some? ==>
              (x.delivery == Refused(RequestNotCreated) <==> !codecs.acceptsURL(x.request.value.url))
    ensures wait.Granted? && x.request.Some? && codecs.acceptsURL(x.request.value.url) ==>
              && x.calls == Run(script).calls && x.sleeps == Run(script).sleeps
              && x.delivery == Deliver(Run(script).last, codecs)
    ensures x.calls <= MaxRetries + 1 && |x.sleeps| == if x.calls == 0 then 0 else x.calls - 1
    ensures x.calls == 0 <==> x.request.None? || x.delivery == Refused(RequestNotCreated)
    ensures x.delivery.Answered? ==> x.calls >= 1 && script[x.calls - 1] == Delivered(x.delivery.response)
                                     && x.delivery.response.statusCode < 400
    ensures x.delivery.Refused? && x.delivery.failure.TransportFailed?
            ==> x.delivery.failure.attempts == x.calls == MaxRetries + 1 && script[MaxRetries].TransportError?
    ensures x.delivery.Refused? && x.delivery.failure.Api?
            ==> x.calls >= 1 && script[x.calls - 1].Delivered?
                && x.delivery.failure.error == ErrorResponse(script[x.calls - 1].response, codecs)
                && x.delivery.failure.error.statusCode >= 400
    ensures x.delivery.Refused? ==> !x.delivery.failure.BodyUnreadable? && !x.delivery.failure.DecodeFailed?
  {
    if wait.Cancelled? then Exchange(Refused(LimiterCancelled), None, 0, [])
    else
      var req := AssembleRequest(client, endpoint, opts, codecs);
      if !codecs.acceptsURL(req.url) then Exchange(Refused(RequestNotCreated), Some(req), 0, [])
      else
        var loop := Run(script);
        Exchange(Deliver(loop.last, codecs), Some(req), loop.calls, loop.sleeps)
  }

  /**
   * Once the limiter grants a token, the request `doRequest` builds has the base
   * URL and endpoint, followed by "?" and the encoded query when there are
   * parameters, and every header holds the caller's last value for its
   * canonical name, or else its default.
   */
  lemma GrantedRequestIsAssembled<T>(client: Client, endpoint: string, opts: RequestOptions,
                                     codecs: Codecs<T>, script: seq<Attempt>, name: string)
    requires |script| == MaxRetries + 1
    ensures var r := DoRequest(client, Granted, endpoint, opts, codecs, script).request;
            && r.Some?
            && (|opts.queryParams| == 0 ==> r.value.url == client.baseURL + endpoint)
            && (|opts.queryParams| > 0 ==>
                  r.value.url == client.baseURL + endpoint + "?" + codecs.encodeQuery(opts.queryParams))
            && Lookup(r.value.headers, name) == Expected(client, opts.headers, name)
  {
    BuildHeadersSpec(client, opts.headers, name);
  }

  /** The decision part of `get`: read the body, decode the envelope, turn a non-zero `error_code` into an error. */
  function Get<T>(client: Client, wait: LimiterWait, endpoint: string, opts: RequestOptions,
                  codecs: Codecs<T>, script: seq<Attempt>): (c: Call<T>)
    requires |script| == MaxRetries + 1
    ensures wait.Cancelled? ==> c.outcome == Failure(LimiterCancelled) && c.request.None? && c.calls == 0 && c.sleeps == []
    ensures wait.Granted? ==> c.request.Some?
    ensures wait.Granted? && c.request.Some? && !codecs.acceptsURL(c.request.value.url) ==>
              c.outcome == Failure(RequestNotCreated) && c.calls == 0 && c.sleeps == []
    ensures c.calls <= MaxRetries + 1
    ensures wait.Granted? && c.request.Some? && codecs.acceptsURL(c.request.value.url) ==>
              var last := Run(script).last;
              && (last.TransportError? ==> c.outcome == Failure(TransportFailed(MaxRetries + 1)))
              && (last.Delivered? && last.response.statusCode >= 400
                  ==> c.outcome == Failure(Api(ErrorResponse(last.response, codecs))))
              && (last.Delivered? && last.response.statusCode < 400
                  ==> c.outcome == Decide(last.response, codecs))
    ensures c.outcome.Success? ==>
              && c.calls >= 1 && script[c.calls - 1].Delivered?
              && var resp := script[c.calls - 1].response;
              && resp.statusCode < 400 && resp.body.Some?
              && codecs.decodeEnvelope(resp.body.value) == Some(c.outcome.envelope)
              && c.outcome.envelope.status.errorCode == 0
    ensures c.outcome.Failure? && c.outcome.failure.Api? ==>
              && c.calls >= 1 && script[c.calls - 1].Delivered?
              && c.outcome.failure.error.statusCode == script[c.calls - 1].response.statusCode
              && (c.outcome.failure.error.statusCode < 400 ==> c.outcome.failure.error.errorCode != 0)
    ensures c.outcome.Failure? && c.outcome.failure.TransportFailed? ==> c.calls == MaxRetries + 1
    ensures c.outcome == Failure(BodyUnreadable) || c.outcome == Failure(DecodeFailed) ==>
              && c.calls >= 1 && script[c.calls - 1].Delivered?
              && script[c.calls - 1].response.statusCode < 400
              && (c.outcome == Failure(BodyUnreadable) <==> script[c.calls - 1].response.body.None?)
  {
    var x := DoRequest(client, wait, endpoint, opts, codecs, script);
    Call(Settle(x.delivery, codecs), x.request, x.calls, x.sleeps)
  }

  /** A refusal passes through `get` unchanged; an answer goes to `Decide`. */
  function Settle<T>(d: Delivery, codecs: Codecs<T>): Outcome<T> {
    match d
    case Refused(f) => Failure(f)
    case Answered(resp) => Decide(resp, codecs)
  }

  /**
   * The limiter is waited on once, before the loop: once it grants a token and
   * the request can be created, the transport calls and the sleeps are exactly
   * those of the retry loop, with no further waits.
   */
  lemma LimiterOnlyBeforeLoop<T>(client: Client, endpoint: string, opts: RequestOptions,
                                 codecs: Codecs<T>, script: seq<Attempt>)
    requires |script| == MaxRetries + 1
    requires codecs.acceptsURL(AssembleRequest(client, endpoint, opts, codecs).url)
    ensures var c := Get(client, Granted, endpoint, opts, codecs, script);
            c.calls == Run(script).calls && c.sleeps == Run(script).sleeps
            && c.request == Some(AssembleRequest(client, endpoint, opts, codecs))
  {
  }

  /** A call succeeds exactly when the last response is below 400, readable, decodable and carries `error_code` 0. */
  lemma SuccessIff<T>(client: Client, wait: LimiterWait, endpoint: string, opts: RequestOptions,
                      codecs: Codecs<T>, script: seq<Attempt>)
    requires |script| == MaxRetries + 1
    ensures Get(client, wait, endpoint, opts, codecs, script).outcome.Success?
            <==> && wait.Granted?
                 && codecs.acceptsURL(AssembleRequest(client, endpoint, opts, codecs).url)
                 && var last := Run(script).last;
                 && last.Delivered? && last.response.statusCode < 400 && last.response.body.Some?
                 && var env := codecs.decodeEnvelope(last.response.body.value);
                 && env.Some? && env.value.status.errorCode == 0
  {
  }

  /** A successful response whose envelope has `error_code` 0 is returned as it was decoded, after one call. */
  lemma SuccessScenario<T>(client: Client, endpoint: string, opts: RequestOptions, codecs: Codecs<T>,
                           body: string, env: Envelope<T>, rest: seq<Attempt>)
    requires Sendable(client, endpoint, opts, codecs)
    requires |rest| == MaxRetries
    requires codecs.decodeEnvelope(body) == Some(env) && env.status.errorCode == 0
    ensures Get(client, Granted, endpoint, opts, codecs, [Delivered(Response(200, "", Some(body)))] + rest)
            == Call(Success(env), Some(AssembleRequest(client, endpoint, opts, codecs)), 1, [])
  {
  }

  /**
   * A 400 whose body decodes to `error_code` 1001 and message "API key invalid"
   * fails with that APIError, which is an authentication error.
   */
  lemma InvalidKeyScenario<T>(client: Client, endpoint: string, opts: RequestOptions, codecs: Codecs<T>,
                              body: string, st: Status, rest: seq<Attempt>)
    requires Sendable(client, endpoint, opts, codecs)
    requires |rest| == MaxRetries
    requires codecs.decodeStatus(body) == Some(st)
    requires st.errorCode == 1001 && st.errorMessage == Some("API key invalid")
    ensures var c := Get(client, Granted, endpoint, opts, codecs, [Delivered(Response(400, "", Some(body)))] + rest);
            && c.outcome == Failure(Api(APIError(400, 1001, "API key invalid")))
            && IsAuthError(c.outcome.failure.error)
            && c.calls == 1
  {
  }

  /** A transport failing twice and then answering successfully: success after three calls and two sleeps. */
  lemma RetryThenSuccessScenario<T>(client: Client, endpoint: string, opts: RequestOptions, codecs: Codecs<T>,
                                    body: string, env: Envelope<T>, any: Attempt)
    requires Sendable(client, endpoint, opts, codecs)
    requires codecs.decodeEnvelope(body) == Some(env) && env.status.errorCode == 0
    ensures var c := Get(client, Granted, endpoint, opts, codecs,
                         [TransportError, TransportError, Delivered(Response(200, "", Some(body))), any]);
            c.outcome == Success(env) && c.calls == 3 && c.sleeps == [Second, 2 * Second]
  {
    FailTwiceThenAnswer(Response(200, "", Some(body)), any);
  }

  /** A transport that always fails is called four times and the call fails with a transport error, not an APIError. */
  lemma TransportExhaustedScenario<T>(client: Client, endpoint: string, opts: RequestOptions, codecs: Codecs<T>)
    requires Sendable(client, endpoint, opts, codecs)
    ensures var c := Get(client, Granted, endpoint, opts, codecs,
                         [TransportError, TransportError, TransportError, TransportError]);
            c.outcome == Failure(TransportFailed(4)) && c.calls == 4
            && c.sleeps == [Second, 2 * Second, 3 * Second]
  {
    AllTransportErrors();
  }

  /** A 429 on every attempt ends, after four calls, as an APIError with status 429, classified as a rate limit. */
  lemma RateLimitExhaustedScenario<T>(client: Client, endpoint: string, opts: RequestOptions, codecs: Codecs<T>,
                                      resp: Response)
    requires Sendable(client, endpoint, opts, codecs)
    requires resp.statusCode == 429 && resp.retryAfter == ""
    ensures var c := Get(client, Granted, endpoint, opts, codecs,
                         [Delivered(resp), Delivered(resp), Delivered(resp), Delivered(resp)]);
            && c.outcome.Failure? && c.outcome.failure.Api?
            && c.outcome.failure.error.statusCode == 429
            && IsRateLimit(c.outcome.failure.error)
            && c.calls == 4
  {
    RateLimitedThroughout(resp);
  }

  /**
   * A rate-limit vendor code on a 200 response is not retried: the call ends
   * after one transport call with an APIError that is a rate limit.
   */
  lemma RateLimitCodeNotRetried<T>(client: Client, endpoint: string, opts: RequestOptions, codecs: Codecs<T>,
                                   body: string, env: Envelope<T>, rest: seq<Attempt>)
    requires Sendable(client, endpoint, opts, codecs)
    requires |rest| == MaxRetries
    requires codecs.decodeEnvelope(body) == Some(env) && env.status.errorCode == 1008
    ensures var c := Get(client, Granted, endpoint, opts, codecs, [Delivered(Response(200, "", Some(body)))] + rest);
            && c.outcome.Failure? && c.outcome.failure.Api?
            && IsRateLimit(c.outcome.failure.error)
            && c.calls == 1 && c.sleeps == []
  {
  }
}

=== FILE: requests.dfy ===
/**
 * Request assembly in `doRequest`: the URL from base URL, endpoint and encoded
 * query, and the header set: the three fixed headers, the API-key header when
 * a key is configured, and then the caller's headers, which may replace any of
 * them.
 */
module Requests {
  import opened Wrappers
  import opened Strings
  import opened Params
  import opened HeaderKeys
  import opened Config

  /** Header values by canonical name (`http.Header.Set` keeps a single value per name). */
  type Headers = map<string, string>

  const ApiKeyHeader := "X-CMC_PRO_API_KEY"

  /** A GET request: the URL and the headers it is sent with. */
  datatype Request = Request(url: string, headers: Headers)

  /** The header's value, if it is set. */
  function Lookup(h: Headers, name: string): Option<string> {
    if name in h then Some(h[name]) else None
  }

  /** `http.Header.Set`. */
  function SetHeader(h: Headers, name: string, value: string): Headers {
    h[CanonicalKey(name) := value]
  }

  /** Sets the given headers one after another, in the order given. */
  function SetAll(h: Headers, pairs: seq<(string, string)>): Headers
    decreases |pairs|
  {
    if |pairs| == 0 then h else SetAll(SetHeader(h, pairs[0].0, pairs[0].1), pairs[1..])
  }

  lemma {:induction false} SetAllSnoc(h: Headers, pairs: seq<(string, string)>, p: (string, string))
    ensures SetAll(h, pairs + [p]) == SetHeader(SetAll(h, pairs), p.0, p.1)
    decreases |pairs|
  {
    if |pairs| > 0 {
      assert (pairs + [p])[1..] == pairs[1..] + [p];
      SetAllSnoc(SetHeader(h, pairs[0].0, pairs[0].1), pairs[1..], p);
    }
  }

  /** The headers every request starts with. */
  function DefaultHeaders(client: Client): Headers {
    var h := SetHeader(SetHeader(SetHeader(map[], "Accept", "application/json"),
                                 "Accept-Encoding", "gzip"),
                       "User-Agent", client.userAgent);
    if client.apiKey != "" then SetHeader(h, ApiKeyHeader, client.apiKey) else h
  }

  /**
   * The caller's headers as Go's map iteration happens to visit them: a
   * sequence of (name, value) pairs applied after the defaults.
   */
  function BuildHeaders(client: Client, callerHeaders: seq<(string, string)>): Headers {
    SetAll(DefaultHeaders(client), callerHeaders)
  }

  /**
   * `reqURL`: base URL and endpoint, followed by "?" and the encoded
   * parameters only when there is at least one parameter name.
   */
  function BuildURL(baseURL: string, endpoint: string, params: Params, encode: Params -> string): (url: string)
    ensures HasPrefix(url, baseURL + endpoint)
    ensures url == baseURL + endpoint <==> |params| == 0
    ensures |params| > 0 ==> url[|baseURL + endpoint|] == '?'
    ensures |params| > 0 ==> url[|baseURL + endpoint| + 1..] == encode(params)
  {
    if |params| > 0 then baseURL + endpoint + "?" + encode(params) else baseURL + endpoint
  }

  /** The value given last, among the caller's headers, to a header with canonical name `name`. */
  function CallerValue(callerHeaders: seq<(string, string)>, name: string): Option<string>
    decreases |callerHeaders|
  {
    if |callerHeaders| == 0 then None
    else
      var last := callerHeaders[|callerHeaders| - 1];
      if CanonicalKey(last.0) == name then Some(last.1)
      else CallerValue(callerHeaders[..|callerHeaders| - 1], name)
  }

  /** The value the defaults give the header with canonical name `name`. */
  function DefaultValue(client: Client, name: string): Option<string> {
    if client.apiKey != "" && name == CanonicalKey(ApiKeyHeader) then Some(client.apiKey)
    else if name == CanonicalKey("User-Agent") then Some(client.userAgent)
    else if name == CanonicalKey("Accept-Encoding") then Some("gzip")
    else if name == CanonicalKey("Accept") then Some("application/json")
    else None
  }

  /** What a request's header `name` is expected to hold: the caller's value if any, else the default. */
  function Expected(client: Client, callerHeaders: seq<(string, string)>, name: string): Option<string> {
    match CallerValue(callerHeaders, name)
    case Some(v) => Some(v)
    case None => DefaultValue(client, name)
  }

  lemma DefaultHeadersSpec(client: Client, name: string)
    ensures Lookup(DefaultHeaders(client), name) == DefaultValue(client, name)
  {
    var h0: Headers := map[];
    var h1 := SetHeader(h0, "Accept", "application/json");
    var h2 := SetHeader(h1, "Accept-Encoding", "gzip");
    var h3 := SetHeader(h2, "User-Agent", client.userAgent);
    assert Lookup(h1, name) == (if name == CanonicalKey("Accept") then Some("application/json") else None);
    assert Lookup(h2, name) == (if name == CanonicalKey("Accept-Encoding") then Some("gzip") else Lookup(h1, name));
    assert Lookup(h3, name) == (if name == CanonicalKey("User-Agent") then Some(client.userAgent) else Lookup(h2, name));
  }

  /**
   * Every header of the assembled request holds the value the caller gave it
   * last, or else its default; no other header is present.
   */
  lemma {:induction false} BuildHeadersSpec(client: Client, callerHeaders: seq<(string, string)>, name: string)
    ensures Lookup(BuildHeaders(client, callerHeaders), name) == Expected(client, callerHeaders, name)
    decreases |callerHeaders|
  {
    if |callerHeaders| == 0 {
      DefaultHeadersSpec(client, name);
    } else {
      var init := callerHeaders[..|callerHeaders| - 1];
      var last := callerHeaders[|callerHeaders| - 1];
      assert init + [last] == callerHeaders;
      SetAllSnoc(DefaultHeaders(client), init, last);
      BuildHeadersSpec(client, init, name);
    }
  }

  /** Without a key the API-key header is absent, unless the caller sets it. */
  lemma NoKeyNoKeyHeader(client: Client, callerHeaders: seq<(string, string)>)
    requires client.apiKey == ""
    requires CallerValue(callerHeaders, CanonicalKey(ApiKeyHeader)).None?
    ensures CanonicalKey(ApiKeyHeader) !in BuildHeaders(client, callerHeaders)
  {
    BuildHeadersSpec(client, callerHeaders, CanonicalKey(ApiKeyHeader));
  }

  /** With a key and no caller override, the API-key header carries the key. */
  lemma KeyHeaderCarriesKey(client: Client, callerHeaders: seq<(string, string)>)
    requires client.apiKey != ""
    requires CallerValue(callerHeaders, CanonicalKey(ApiKeyHeader)).None?
    ensures Lookup(BuildHeaders(client, callerHeaders), CanonicalKey(ApiKeyHeader)) == Some(client.apiKey)
  {
    BuildHeadersSpec(client, callerHeaders, CanonicalKey(ApiKeyHeader));
  }

  /** Distinct header names, once canonicalised (as those of a Go map of canonical names are). */
  ghost predicate DistinctNames(callerHeaders: seq<(string, string)>) {
    forall i, j :: 0 <= i < j < |callerHeaders|
      ==> CanonicalKey(callerHeaders[i].0) != CanonicalKey(callerHeaders[j].0)
  }

  lemma {:induction false} CallerValueDistinct(callerHeaders: seq<(string, string)>, i: nat)
    requires DistinctNames(callerHeaders)
    requires i < |callerHeaders|
    ensures CallerValue(callerHeaders, CanonicalKey(callerHeaders[i].0)) == Some(callerHeaders[i].1)
    decreases |callerHeaders|
  {
    var n := |callerHeaders|;
    if i < n - 1 {
      var init := callerHeaders[..n - 1];
      assert init[i] == callerHeaders[i];
      CallerValueDistinct(init, i);
    }
  }

  /**
   * When the caller's names are distinct, each caller header ends up in the
   * request with the caller's value, whatever order they are applied in; this
   * includes overriding the defaults and the API-key header.
   */
  lemma CallerHeadersWin(client: Client, callerHeaders: seq<(string, string)>, i: nat)
    requires DistinctNames(callerHeaders)
    requires i < |callerHeaders|
    ensures Lookup(BuildHeaders(client, callerHeaders), CanonicalKey(callerHeaders[i].0)) == Some(callerHeaders[i].1)
  {
    CallerValueDistinct(callerHeaders, i);
    BuildHeadersSpec(client, callerHeaders, CanonicalKey(callerHeaders[i].0));
  }
}

=== FILE: retry.dfy ===
/**
 * The retry loop of `doRequest`. Transport failures and HTTP 429 responses
 * share one attempt counter running from 0 to `MaxRetries`; after a retryable
 * outcome on any attempt but the last, the loop sleeps and calls the transport
 * again. The transport's behaviour is given as a script with one outcome per
 * possible attempt, and the sleeps are recorded instead of taken.
 */
module Retry {
  import opened Wrappers
  import opened Decimal
  import opened Config
  import opened ApiErrors

  const MaxRetries: nat := 3
  const DefaultRetryDelay: int := Second

  /** An HTTP response: status, the `Retry-After` header ("" when absent) and the body (`None` when it cannot be read). */
  datatype Response = Response(statusCode: int, retryAfter: string, body: Option<string>)

  /** What one call of the transport produced. */
  datatype Attempt = TransportError | Delivered(response: Response)

  /** The loop's result: the last outcome, how many transport calls were made, and the sleeps in order (nanoseconds). */
  datatype LoopResult = LoopResult(last: Attempt, calls: nat, sleeps: seq<int>)

  /** Go's `int64` multiplication wraps around; so does `time.Duration` arithmetic. */
  function Wrap64(x: int): (r: int)
    ensures IsInt64(r)
    ensures IsInt64(x) ==> r == x
  {
    ((x - Int64Min) % 0x1_0000_0000_0000_0000) + Int64Min
  }

  /** Linear backoff: `DefaultRetryDelay * (attempt + 1)`. */
  function Backoff(attempt: nat): int {
    DefaultRetryDelay * (attempt + 1)
  }

  /**
   * The sleep after a 429: the `Retry-After` header's whole seconds when it
   * parses as an integer (the delay-seconds form of section 10.2.3 of
   * RFC 9110), otherwise linear backoff.
   */
  function RetryAfterDelay(header: string, attempt: nat): int {
    if header != "" then
      match Atoi(header)
      case Some(seconds) => Wrap64(seconds * Second)
      case None => Backoff(attempt)
    else Backoff(attempt)
  }

  /** Outcomes the loop retries when attempts remain. */
  predicate Retryable(a: Attempt) {
    a.TransportError? || a.response.statusCode == StatusTooManyRequests
  }

  /** The sleep taken after a retryable outcome of attempt number `attempt`. */
  function Delay(a: Attempt, attempt: nat): int
    requires Retryable(a)
  {
    if a.TransportError? then Backoff(attempt) else RetryAfterDelay(a.response.retryAfter, attempt)
  }

  /** Runs the loop from attempt number `attempt` on. */
  function RunFrom(script: seq<Attempt>, attempt: nat): (r: LoopResult)
    requires |script| == MaxRetries + 1
    requires attempt <= MaxRetries
    ensures 1 <= r.calls <= MaxRetries + 1 - attempt
    ensures |r.sleeps| == r.calls - 1
    ensures r.last == script[attempt + r.calls - 1]
    ensures forall j :: attempt <= j < attempt + r.calls - 1
              ==> Retryable(script[j]) && r.sleeps[j - attempt] == Delay(script[j], j)
    ensures attempt + r.calls - 1 < MaxRetries ==> !Retryable(r.last)
    decreases MaxRetries - attempt
  {
    var outcome := script[attempt];
    if Retryable(outcome) && attempt < MaxRetries then
      var rest := RunFrom(script, attempt + 1);
      LoopResult(rest.last, rest.calls + 1, [Delay(outcome, attempt)] + rest.sleeps)
    else
      LoopResult(outcome, 1, [])
  }

  /** The whole loop, from attempt 0. */
  function Run(script: seq<Attempt>): (r: LoopResult)
    requires |script| == MaxRetries + 1
    ensures 1 <= r.calls <= MaxRetries + 1
    ensures |r.sleeps| == r.calls - 1
    ensures r.last == script[r.calls - 1]
    ensures forall j :: 0 <= j < r.calls - 1 ==> Retryable(script[j]) && r.sleeps[j] == Delay(script[j], j)
    ensures r.calls - 1 < MaxRetries ==> !Retryable(r.last)
  {
    RunFrom(script, 0)
  }

  /** The first attempt whose outcome is not retried: the first non-retryable one, or the last attempt. */
  function StopIndex(script: seq<Attempt>, from: nat): (i: nat)
    requires |script| == MaxRetries + 1
    requires from <= MaxRetries
    decreases MaxRetries - from
  {
    if from == MaxRetries || !Retryable(script[from]) then from else StopIndex(script, from + 1)
  }

  /** The loop makes exactly as many calls as it takes to reach the stopping attempt. */
  lemma {:induction false} RunStopsAtStopIndex(script: seq<Attempt>, from: nat)
    requires |script| == MaxRetries + 1
    requires from <= MaxRetries
    ensures RunFrom(script, from).calls == StopIndex(script, from) - from + 1
    decreases MaxRetries - from
  {
    if from < MaxRetries && Retryable(script[from]) {
      RunStopsAtStopIndex(script, from + 1);
    }
  }

  /** Outcomes after the last call are never consulted: the transport is called exactly `calls` times. */
  lemma LaterOutcomesIrrelevant(s1: seq<Attempt>, s2: seq<Attempt>)
    requires |s1| == |s2| == MaxRetries + 1
    requires s1[..Run(s1).calls] == s2[..Run(s1).calls]
    ensures Run(s1) == Run(s2)
  {
    var n := Run(s1).calls;
    assert forall j :: 0 <= j < n ==> s1[j] == s2[j] by {
      forall j | 0 <= j < n ensures s1[j] == s2[j] {
        assert s1[..n][j] == s2[..n][j];
      }
    }
    SameRun(s1, s2, 0);
  }

  lemma {:induction false} SameRun(s1: seq<Attempt>, s2: seq<Attempt>, from: nat)
    requires |s1| == |s2| == MaxRetries + 1
    requires from <= MaxRetries
    requires forall j :: from <= j < from + RunFrom(s1, from).calls ==> s1[j] == s2[j]
    ensures RunFrom(s1, from) == RunFrom(s2, from)
    decreases MaxRetries - from
  {
    if from < MaxRetries && Retryable(s1[from]) {
      SameRun(s1, s2, from + 1);
    }
  }

  /** A transport that fails on every attempt is called four times, sleeping 1 s, 2 s and 3 s in between. */
  lemma AllTransportErrors()
    ensures var r := Run([TransportError, TransportError, TransportError, TransportError]);
            r == LoopResult(TransportError, 4, [Second, 2 * Second, 3 * Second])
  {
  }

  /** A transport failing twice and then answering is called three times, with two backoff sleeps. */
  lemma FailTwiceThenAnswer(resp: Response, any: Attempt)
    requires resp.statusCode != StatusTooManyRequests
    ensures Run([TransportError, TransportError, Delivered(resp), any])
            == LoopResult(Delivered(resp), 3, [Second, 2 * Second])
  {
  }

  /** A 429 on every attempt: three sleeps, and the fourth 429 is what the loop ends with. */
  lemma RateLimitedThroughout(resp: Response)
    requires resp.statusCode == StatusTooManyRequests && resp.retryAfter == ""
    ensures Run([Delivered(resp), Delivered(resp), Delivered(resp), Delivered(resp)])
            == LoopResult(Delivered(resp), 4, [Second, 2 * Second, 3 * Second])
  {
  }

  /**
   * A `Retry-After` of a whole number of seconds is slept exactly while it fits
   * `time.Duration`; a negative number is accepted too, and gives a negative
   * duration, which `time.Sleep` does not wait.
   */
  lemma RetryAfterSecondsHonoured(seconds: int, attempt: nat)
    requires -(Int64Max / Second) <= seconds <= Int64Max / Second
    ensures RetryAfterDelay(Itoa(seconds), attempt) == seconds * Second
  {
    AtoiItoa(seconds);
  }

  /** Any `Retry-After` that is not an integer (an HTTP date, a fraction, blanks) falls back to linear backoff. */
  lemma RetryAfterFallsBack(header: string, attempt: nat)
    requires Atoi(header).None?
    ensures RetryAfterDelay(header, attempt) == Backoff(attempt)
  {
  }

  /**
   * A `Retry-After` too large for `time.Duration` wraps around: from about 292
   * up to about 584 years it becomes a negative duration, which `time.Sleep`
   * does not wait.
   */
  lemma RetryAfterOverflowWraps(seconds: int, attempt: nat)
    requires Int64Max / Second < seconds <= 18_446_744_073
    ensures RetryAfterDelay(Itoa(seconds), attempt) == seconds * Second - 0x1_0000_0000_0000_0000
    ensures RetryAfterDelay(Itoa(seconds), attempt) < 0
  {
    AtoiItoa(seconds);
    var x := seconds * Second;
    assert 0x8000_0000_0000_0000 <= x < 0x1_0000_0000_0000_0000;
    assert (x - Int64Min) % 0x1_0000_0000_0000_0000 == x - Int64Min - 0x1_0000_0000_0000_0000;
  }

  /**
   * Past 2^64 nanoseconds the wrapped duration is positive again: a `Retry-After`
   * of about 584 to 876 years becomes a sleep of up to about 292 years.
   */
  lemma RetryAfterWrapsPositive(seconds: int, attempt: nat)
    requires 18_446_744_074 <= seconds <= 27_670_116_110
    ensures RetryAfterDelay(Itoa(seconds), attempt) == seconds * Second - 0x1_0000_0000_0000_0000
    ensures RetryAfterDelay(Itoa(seconds), attempt) > 0
  {
    AtoiItoa(seconds);
    var x := seconds * Second;
    assert 0x1_0000_0000_0000_0000 <= x < 0x1_8000_0000_0000_0000;
    assert (x - Int64Min) % 0x1_0000_0000_0000_0000 == x - Int64Min - 0x1_0000_0000_0000_0000;
  }

  /**
   * A `Retry-After` below the negative end of `time.Duration` wraps around too:
   * about -584 to -292 years becomes a positive sleep of up to about 292 years.
   */
  lemma RetryAfterNegativeWraps(seconds: int, attempt: nat)
    requires -18_446_744_073 <= seconds <= -(Int64Max / Second) - 1
    ensures RetryAfterDelay(Itoa(seconds), attempt) == seconds * Second + 0x1_0000_0000_0000_0000
    ensures RetryAfterDelay(Itoa(seconds), attempt) > 0
  {
    AtoiItoa(seconds);
    var x := seconds * Second;
    assert -0x1_0000_0000_0000_0000 < x < -0x8000_0000_0000_0000;
    assert (x - Int64Min) % 0x1_0000_0000_0000_0000 == x - Int64Min + 0x1_0000_0000_0000_0000;
  }
}

=== FILE: strings.dfy ===
/** Joining and splitting strings on a one-character separator, as Go's `strings` package does. */
module Strings {
  import opened Wrappers

  /** `s` starts with `prefix`. */
  predicate HasPrefix(s: string, prefix: string) {
    |prefix| <= |s| && s[..|prefix|] == prefix
  }

  /** `strings.Join(parts, string(sep))`. */
  function Join(parts: seq<string>, sep: char): (s: string)
    ensures |parts| == 1 ==> s == parts[0]
    ensures |parts| == 0 ==> s == ""
  {
    if |parts| == 0 then ""
    else if |parts| == 1 then parts[0]
    else parts[0] + [sep] + Join(parts[1..], sep)
  }

  /** `strings.Split(s, string(sep))`: the pieces between separators, always at least one. */
  function Split(s: string, sep: char): (parts: seq<string>)
    ensures |parts| >= 1
  {
    if |s| == 0 then [""]
    else
      var rest := Split(s[1..], sep);
      if s[0] == sep then [""] + rest else [[s[0]] + rest[0]] + rest[1..]
  }

  /** The text before the first `sep` and the text after it, if `sep` occurs. */
  function SplitFirst(s: string, sep: char): (r: Option<(string, string)>)
    ensures r.None? <==> sep !in s
    ensures r.Some? ==> sep !in r.value.0 && s == r.value.0 + [sep] + r.value.1
  {
    if |s| == 0 then None
    else if s[0] == sep then Some(("", s[1..]))
    else
      match SplitFirst(s[1..], sep)
      case None => None
      case Some((before, after)) =>
        assert s == [s[0]] + s[1..];
        Some(([s[0]] + before, after))
  }

  /** The split is determined by where the separator first occurs. */
  lemma {:induction false} SplitFirstAt(a: string, sep: char, b: string)
    requires sep !in a
    ensures SplitFirst(a + ([sep] + b), sep) == Some((a, b))
  {
    var s := a + ([sep] + b);
    if |a| == 0 {
      assert s == [sep] + b;
    } else {
      assert s[1..] == a[1..] + ([sep] + b);
      SplitFirstAt(a[1..], sep, b);
      assert [a[0]] + a[1..] == a;
    }
  }

  /** A concatenation starts with its first part, and dropping that part leaves the rest. */
  lemma PrefixDrop(a: string, b: string)
    ensures HasPrefix(a + b, a) && (a + b)[|a|..] == b
  {
  }

  /** A non-empty string followed by more text is its first character followed by the rest. */
  lemma Uncons(lit: string, b: string)
    requires |lit| > 0
    ensures lit + b == [lit[0]] + (lit[1..] + b)
  {
  }

  /** A string without the separator splits into itself. */
  lemma {:induction false} SplitNoSep(s: string, sep: char)
    requires sep !in s
    ensures Split(s, sep) == [s]
  {
    if |s| > 0 {
      SplitNoSep(s[1..], sep);
      assert [s[0]] + s[1..] == s;
    }
  }

  /** Splitting `a + sep + b` peels `a` off the front when `a` holds no separator. */
  lemma {:induction false} SplitCons(a: string, sep: char, b: string)
    requires sep !in a
    ensures Split(a + [sep] + b, sep) == [a] + Split(b, sep)
  {
    if |a| == 0 {
      assert a + [sep] + b == [sep] + b;
      assert ([sep] + b)[1..] == b;
    } else {
      var s := a + [sep] + b;
      assert s[1..] == a[1..] + [sep] + b;
      SplitCons(a[1..], sep, b);
      assert [a[0]] + a[1..] == a;
    }
  }

  /** Splitting undoes joining when no part contains the separator. */
  lemma {:induction false} SplitJoin(parts: seq<string>, sep: char)
    requires |parts| >= 1
    requires forall i :: 0 <= i < |parts| ==> sep !in parts[i]
    ensures Split(Join(parts, sep), sep) == parts
  {
    if |parts| == 1 {
      SplitNoSep(parts[0], sep);
    } else {
      SplitJoin(parts[1..], sep);
      SplitCons(parts[0], sep, Join(parts[1..], sep));
      assert [parts[0]] + parts[1..] == parts;
    }
  }
}

=== FILE: wrappers.dfy ===
/** The optional-value datatype the rest of the model uses in place of Go's nil pointers. */
module Wrappers {

  /** `None` stands for a nil pointer or an absent value, `Some(v)` for a present one. */
  datatype Option<+T> = None | Some(value: T) {

    /** The encapsulated value, or `default` when there is none. */
    function GetOr(default: T): T {
      match this
      case Some(v) => v
      case None => default
    }
  }
}
